=== FILE: README.md ===
# LEE ledger model

A Dafny model of the ledger kept by the LEE payment-confirmation server
(`server.js`). The server stores one JSON database with three parts:

- the submissions that payers send in,
- the balance book, which maps an account (an email address, a phone number, a
  transaction reference or `user-<millis>`) to an amount of LΞΞ,
- the transfer log.

The issuer account `LEE_ADMIN` is the only source of value. `/api/submit`
validates a payment form and records it as pending. It then tops the issuer up
when the issuer is short, moves the amount to the submitter's email account and
marks the submission verified by `system`. `/api/admin/verify` does the same
for an earlier pending submission, with no top-up. It credits the trimmed phone
number, the transaction reference or a generated `user-<millis>` account.
`/api/admin/reject` marks a submission rejected. A successful admin login seeds
the issuer balance. `/api/dashboard` shows one account's balance and the
transfers that mention it.

The model is split into modules:

- `LedgerTypes` (`types.dfy`): records, error kinds, constants and decimal
  rendering of the clock for ids.
- `Text` (`text.dfy`): JavaScript `String.prototype.trim`.
- `Balances` (`balances.dfy`): the balance book. It holds the issuer entry, the
  top-up, the login seed, the transfer step and the sum of all balances.
- `Registry` (`registry.dfy`): building a submission, finding it by id,
  resolving it and choosing the recipient of a verification.
- `Views` (`views.dfy`): the dashboard reply.
- `Server` (`server.dfy`): class `Ledger`, whose fields are the three parts of
  the database. Each state-changing handler is a method on it.

Each handler runs from `readDB` to `writeDB` without yielding, so each method is
one atomic step. A handler that replies with an error before `writeDB` leaves
the database unchanged, and the methods say so with `unchanged(this)`.

`Ledger.Valid()` is the invariant every method keeps:

- Conservation: the sum of all balances equals the ghost counter `minted`.
  `minted` grows only by what top-ups and login seeding add to the issuer.
  Transfers only move value.
- Every logged transfer is debited from the issuer.
- Every logged transfer names a submission that carries a verification stamp
  (`verifiedBy` is set). A later rejection keeps the stamp.

`/api/submit` never writes a pending submission: it leaves each new one
`failed` or `verified`, and no other handler creates submissions. A database
this server builds from empty therefore never holds a pending submission
(`Registry.NoPending`, established by the constructor and kept by every
handler). In such a database `/api/admin/verify` can only answer with an error
and changes nothing, so the success halves of `Server.VerifyTwice` and
`Server.RejectAfterVerify` apply only to a database that holds pending entries
from elsewhere.

Three behaviours of the code shape the model:

- `/api/admin/reject` has no pending guard. It also rejects a verified
  submission, and the transfer and credit stay in place (`Server.RejectAfterVerify`).
- On the failed path of `/api/submit`, the top-up is written together with the
  failed submission.
- `/api/admin/verify` never tops the issuer up.
- Neither `/api/submit` nor `/api/admin/verify` checks the sign of the amount.
  A negative submit passes the amount check, debits the email account and raises
  the issuer, so balances stay non-negative only for non-negative amounts.

## Model

| member | source | states |
|---|---|---|
| LedgerTypes.Decimal | server.js:62 | the decimal rendering of the clock used in ids is a non-empty string of digits that denotes the clock reading, with no leading zero unless it is the single digit 0 |
| LedgerTypes.DecimalInjective | server.js:62 | two clock readings give the same id digits only when they are equal |
| Text.LeadingSpaces | server.js:205 | the white space run at the front of a string: all white space, followed by a non-space or the end |
| Text.TrailingSpaces | server.js:205 | the white space run at the back of a string: all white space, preceded by a non-space or the start |
| Text.Trim | server.js:205 | `trim()` returns the slice after the leading white space with only white space after it; it neither starts nor ends with white space, and it is empty exactly when the string is blank |
| Text.TrimEmptyIffBlank | server.js:205 | the phone test `s.phone.trim()` is falsy exactly when every character of the phone is white space |
| Text.TrimIdempotent | server.js:205 | trimming a trimmed string changes nothing, so a phone recipient is already in trimmed form (used by `Registry.ChooseRecipient`) |
| Balances.Lookup | server.js:93 | the default to 0: an account's stored balance, or 0 when it has no entry (the same default is applied at lines 79, 157, 201 and 207) |
| Balances.WithIssuer | server.js:78-79 | defaulting the issuer balance to 0 gives the issuer an entry and leaves its balance and every other account as they were |
| Balances.WithIssuerConserves | server.js:79 | giving the issuer an entry does not change the sum of all balances |
| Balances.TopUp | server.js:80-82 | the top-up only touches the issuer; a balance short of the amount becomes exactly max(balance, 1000000000), a sufficient one is left alone; afterwards the issuer is short of the amount exactly when it was short before and the amount also exceeds 1000000000 |
| Balances.TopUpIdempotent | server.js:82 | a second top-up for the same amount changes nothing |
| Balances.TopUpKeepsNonNegative | server.js:78-82 | a top-up never makes a balance negative |
| Balances.Seed | server.js:139-140 | login seeding gives the issuer a non-zero entry; a missing or zero balance becomes 1000000000 and any other book is unchanged |
| Balances.SeedIdempotent | server.js:140 | a second login seeds nothing |
| Balances.MoveEffect | server.js:91-93 | a transfer debits the source and credits the destination by exactly the amount (a self-transfer nets out); both get an entry and no other account changes |
| Balances.TotalRemove | server.js:91-93 | the sum of all balances splits at any account |
| Balances.TotalUpdate | server.js:91-93 | setting one balance changes the sum by exactly the difference |
| Balances.MoveConserves | server.js:91-93 | a transfer leaves the sum of all balances unchanged |
| Balances.MoveKeepsNonNegative | server.js:203-207 | a non-negative transfer the issuer can cover keeps every balance non-negative |
| Registry.OrNull | server.js:65-71 | the default to null for a request string: null exactly for the empty string, the string itself otherwise |
| Registry.Amount | server.js:80 | the amount submit (and verify, at line 202) moves: the stored `lee` when it is non-zero, else the stored `usd`, and 0 only when both are 0 |
| Registry.NewSubmission | server.js:62-74 | the recorded submission is pending, has id `MPESA-<millis>`, the request time and no resolution fields; name, phone, email, txRef and screenshot are the form's strings with empty ones stored as null; its usd is the form's; its stored `lee` is the form's non-zero `lee`, else its `usd`; the amount to move is the form's non-zero `lee`, else its `usd`, and is never 0 |
| Registry.FirstIndex | server.js:195 | `findIndex` returns the first position holding the id, or none exactly when no submission has it |
| Registry.FirstIndexAfterUpdate | server.js:213 | rewriting a submission in place without changing its id leaves every lookup by id where it was |
| Registry.MarkVerified | server.js:213-215 | verification sets the status to verified, `verifiedBy` to the resolver and `verifiedAt` to the time, and keeps every other field |
| Registry.MarkRejected | server.js:229-230 | rejection sets the status to rejected and `rejectedAt` to the time, and keeps every other field, a verification stamp included |
| Registry.VerifiedStaysFirst | server.js:195-198 | after a verification, a lookup by the same id finds the same submission and it is no longer pending |
| Registry.StampedAfterAppend | server.js:75 | recording a new submission keeps every verification stamp |
| Registry.StampedAfterUpdate | server.js:229-230 | rewriting a submission so that it keeps any verification stamp it had keeps every stamped id stamped |
| Registry.AllStampedAfterAppend | server.js:75 | recording a new submission keeps every transfer backed by a stamped submission |
| Registry.AllStampedAfterUpdate | server.js:86 | marking a submission failed or rejected keeps every transfer backed by a stamped submission |
| Registry.AllStampedAfterVerify | server.js:209-215 | logging a transfer and stamping the submission it names keeps every transfer backed |
| Registry.ChooseRecipient | server.js:205 | the recipient is the trimmed phone when it is not blank (no white space at either end), else the non-empty transaction reference, else the placeholder; it is never empty, and a phone recipient is a fixed point of trim |
| Registry.Placeholder | server.js:205 | the generated account is `user-` followed by the digits of the clock reading, so it is never the issuer's account |
| Views.Involving | server.js:156 | the filter keeps exactly the transfers to or from the account, each as often as the log holds it, as a subsequence of the log in ledger order |
| Views.InvolvingAppend | server.js:156 | filtering a log with one more transfer appends that transfer exactly when it mentions the account |
| Views.Dashboard | server.js:155-157 | the reply carries the account, its balance (0 when it has none) and exactly the transfers that mention it, with their multiplicity and in ledger order |
| Views.DashboardAfterTransfer | server.js:91-97 | after a transfer from the issuer, the recipient's dashboard shows the balance raised by exactly the amount and the new transfer at the end |
| Server.Ledger.constructor | server.js:27-35 | a new database is empty, satisfies the invariant and holds no pending submission |
| Server.Ledger.Submit | server.js:56-104 | a usd that is absent, not numeric or the number 0, then a missing email, are refused with nothing written; otherwise the pending submission is appended and the issuer topped up; it fails (keeping the top-up) exactly when the amount exceeds max(issuer balance, 1000000000); else the amount moves to the email account, a `TR-` transfer is logged and the submission is verified by `system`; conservation is kept, non-negativity is kept for a non-negative amount, and no pending submission is left behind |
| Server.Ledger.TopUpIssuer | server.js:78-82 | the book becomes the topped-up book, and the minted counter grows by what the issuer gained |
| Server.Ledger.Settle | server.js:91-102 | the book becomes the transfer from the issuer, the log gains exactly that transfer naming the submission, that submission alone is marked verified, and conservation holds |
| Server.Ledger.Verify | server.js:190-219 | a missing id, an unknown id, a non-pending first match or a short issuer is refused with nothing changed; otherwise the amount moves from the issuer to the chosen recipient, exactly one transfer is logged and only the first match is marked verified; conservation is kept, non-negativity is kept for a non-negative amount; in a database with no pending submission it always refuses |
| Server.Ledger.Reject | server.js:222-234 | a missing or unknown id is refused; otherwise the first match is marked rejected whatever its status; balances and transfers never change, and no pending submission appears |
| Server.Ledger.SeedOnLogin | server.js:138-141 | the book becomes the seeded book and the minted counter grows by what the issuer gained |
| Server.Ledger.AdminBalances | server.js:183-188 | the reply is the book with an issuer entry added and the stored book unchanged |
| Server.VerifyTwice | server.js:195-198 | verifying the same id twice always fails the second time (as not pending when the first succeeded); together the two make exactly the first call's balance change and log entry, or none when it failed |
| Server.RejectAfterVerify | server.js:222-230 | rejecting a verified submission succeeds and leaves it rejected, while its transfer stays in the log and its credit in the book |

## Left out

- HTTP routing, CORS, static files, status codes and reply bodies are left out. Each handler is modelled by its effect on the database and a `Result` naming the error.
- `readDB`/`writeDB` file persistence is left out. The database is an in-memory object, created empty as `readDB` creates it when no file exists. A database file edited outside the server (missing keys, arbitrary values) is not modelled.
- JWT signing and checking, admin credentials, `ADMIN_ENABLED` and the admin middleware are left out. The verifier's identity is a parameter of `Verify`, and `SeedOnLogin` models only the ledger effect of a successful login. The `ADMIN_EMAIL` fallback when the token carries no email is therefore not modelled.
- Mail sending with nodemailer and the dashboard link are left out. They do not touch the ledger.
- `/api/admin/submissions` and `/api/admin/transfers` return a stored list as it is. They are the `submissions` and `transfers` fields themselves.
- The clock is a parameter read once per handler (`Clock`). The source reads it several times per request, so its timestamps and ids can differ by a few milliseconds within one handler.
- JavaScript number coercion is reduced to `Option<int>`, where `None` means absent or not a number. Fractional amounts, `Infinity` and strings such as `" "` that coerce to 0 are not modelled.
- Server.Ledger.Valid: amounts and balances are IEEE-754 doubles in the source and unbounded integers in the model. The source bounds neither the size nor the sign of `usd` and `lee`, so the `-=` and `+` of a transfer round once a value passes 2^53. For example, a submit with `usd: -1e20` against an issuer holding 1000000000 stores 1.00000000001e20 for the issuer and -1e20 for the email account. These sum to 999997440, not 1000000000. Conservation in `Ledger.Valid` and the exact debit and credit of `Balances.MoveEffect` hold in the source only while every amount and balance stays within ±2^53.
- Server.Ledger.Submit: refuses every zero `usd`, but the source accepts the numeric string `"0"`. It is truthy, so it passes the amount check, and it is stored as `usd: 0`. The source then moves `Number(lee || "0")`: a zero transfer marked verified, or the `lee` amount. `SubmitForm` cannot represent a zero that passes the check, so this path is not modelled.
- Balances.Move: the book is a `map` from account names to integers. In the source it is a plain JavaScript object parsed from JSON, and names of `Object.prototype` members do not behave as keys. The email only has to be truthy, and a phone number or transaction reference can also become the recipient. For the recipient `__proto__`, `(balances["__proto__"] || 0) + amount` is a string that the `__proto__` setter ignores. The issuer is still debited, so the credit is lost and the sum of balances falls by the amount. For `constructor`, `toString`, `hasOwnProperty` and the other inherited names, the stored balance becomes a string such as `"function Object() { [native code] }5"`. A dashboard read for such a name with no entry returns the inherited function instead of 0. `Lookup` returns 0 for every absent name, so conservation in `Ledger.Valid` and the balances `Views.Dashboard` states hold only for account names that are not `Object.prototype` members, and also only within the number range given in the `Server.Ledger.Valid` line.
- Registry.NewSubmission: stores `usd` as the credited amount when `lee` is absent, 0 or not a number. For a non-numeric `lee`, the source stores NaN there. For the string `"0"`, the source stores `lee: 0`. The amount moved is `usd` in every one of these cases.
- Two requests in the same millisecond get the same id. The model allows this, and `FirstIndex` always uses the first match, as `findIndex` does.
- The service worker `sw.js` is not part of this model. It does not touch the ledger.

=== FILE: balances.dfy ===
/** The balance book `db.balances`: account identifier to amount, with the
    operations the handlers apply to it and the sum that conservation is about. */
module Balances {
  import opened LedgerTypes

  type Book = map<string, int>

  /** `balances[k] || 0`: the balance of `k`, 0 for an account never credited. */
  function Lookup(m: Book, k: string): (v: int)
    ensures k in m ==> v == m[k]
    ensures k !in m ==> v == 0
  {
    if k in m then m[k] else 0
  }

  function Max(a: int, b: int): int
  {
    if a < b then b else a
  }

  /** Every account other than `k` has the same balance in both books. */
  predicate SameExcept(m: Book, m': Book, k: string)
  {
    m - {k} == m' - {k}
  }

  /** `balances[LEE_ADMIN] = balances[LEE_ADMIN] || 0`: the issuer gets an entry,
      with its balance unchanged. */
  function WithIssuer(m: Book): (r: Book)
    ensures Issuer in r && r[Issuer] == Lookup(m, Issuer)
    ensures SameExcept(m, r, Issuer)
    ensures Issuer in m ==> r == m
  {
    m[Issuer := Lookup(m, Issuer)]
  }

  /** The auto-verify top-up: an issuer balance below `amount` is reset to
      `max(balance, TopUpCeiling)`; a sufficient one is left alone. */
  function TopUp(m: Book, amount: int): (r: Book)
    ensures SameExcept(m, r, Issuer)
    ensures Lookup(m, Issuer) >= amount ==> r == m
    ensures Lookup(m, Issuer) < amount ==> Issuer in r && r[Issuer] == Max(Lookup(m, Issuer), TopUpCeiling)
    ensures Lookup(m, Issuer) <= Lookup(r, Issuer)
    ensures Lookup(r, Issuer) <= Max(Lookup(m, Issuer), TopUpCeiling)
    ensures Lookup(r, Issuer) < amount <==> Lookup(m, Issuer) < amount && TopUpCeiling < amount
  {
    var current := Lookup(m, Issuer);
    if current < amount then m[Issuer := Max(current, TopUpCeiling)] else m
  }

  /** Topping up twice for the same amount is the same as topping up once. */
  lemma TopUpIdempotent(m: Book, amount: int)
    ensures TopUp(TopUp(m, amount), amount) == TopUp(m, amount)
  {
  }

  /** The login seeding `balances[LEE_ADMIN] = balances[LEE_ADMIN] || 1000000000`:
      a missing or zero issuer balance becomes `LoginSeed`; any other stays. */
  function Seed(m: Book): (r: Book)
    ensures Issuer in r && r[Issuer] != 0
    ensures Lookup(m, Issuer) == 0 ==> r[Issuer] == LoginSeed
    ensures Lookup(m, Issuer) != 0 ==> r == m
    ensures SameExcept(m, r, Issuer)
  {
    m[Issuer := if Lookup(m, Issuer) == 0 then LoginSeed else Lookup(m, Issuer)]
  }

  /** Seeding is idempotent: a second login changes nothing. */
  lemma SeedIdempotent(m: Book)
    ensures Seed(Seed(m)) == Seed(m)
  {
  }

  /** `balances[from] -= amount; balances[to] = (balances[to] || 0) + amount`, in
      that order. */
  function Move(m: Book, from: string, to: string, amount: int): Book
  {
    var debited := m[from := Lookup(m, from) - amount];
    debited[to := Lookup(debited, to) + amount]
  }

  /** A transfer debits the source by exactly `amount` and credits the
      destination by exactly `amount` (so a transfer to oneself nets out); both
      end up with an entry, and no other account changes. */
  lemma MoveEffect(m: Book, from: string, to: string, amount: int)
    ensures var r := Move(m, from, to, amount);
      && from in r && to in r
      && (from != to ==> r[from] == Lookup(m, from) - amount && r[to] == Lookup(m, to) + amount)
      && (from == to ==> r[from] == Lookup(m, from))
      && r - {from, to} == m - {from, to}
  {
    var r := Move(m, from, to, amount);
    assert r - {from, to} == m - {from, to};
  }

  /** Sum of all balances in the book. */
  ghost function Total(m: Book): int
    decreases m.Keys
  {
    if m == map[] then 0
    else
      var k :| k in m;
      m[k] + Total(m - {k})
  }

  /** The sum can be split at ANY account, not only at the one `Total` picks. */
  lemma {:induction false} TotalRemove(m: Book, k: string)
    requires k in m
    ensures Total(m) == m[k] + Total(m - {k})
    decreases m.Keys
  {
    var j :| j in m && Total(m) == m[j] + Total(m - {j});
    if j != k {
      assert m - {j} - {k} == m - {k} - {j};
      TotalRemove(m - {j}, k);
      TotalRemove(m - {k}, j);
    }
  }

  /** Setting one balance changes the sum by exactly the difference. */
  lemma TotalUpdate(m: Book, k: string, v: int)
    ensures Total(m[k := v]) == Total(m) - Lookup(m, k) + v
  {
    var m' := m[k := v];
    TotalRemove(m', k);
    if k in m {
      TotalRemove(m, k);
      assert m' - {k} == m - {k};
    } else {
      assert m' - {k} == m;
    }
  }

  /** Giving the issuer an explicit entry does not change the sum. */
  lemma WithIssuerConserves(m: Book)
    ensures Total(WithIssuer(m)) == Total(m)
  {
    TotalUpdate(m, Issuer, Lookup(m, Issuer));
  }

  /** Conservation: a transfer moves value between two accounts and leaves the
      sum of all balances unchanged. */
  lemma MoveConserves(m: Book, from: string, to: string, amount: int)
    ensures Total(Move(m, from, to, amount)) == Total(m)
  {
    var debited := m[from := Lookup(m, from) - amount];
    TotalUpdate(m, from, Lookup(m, from) - amount);
    TotalUpdate(debited, to, Lookup(debited, to) + amount);
  }

  /** No account has a negative balance. */
  predicate NonNegative(m: Book)
  {
    forall a :: a in m ==> m[a] >= 0
  }

  /** A top-up never makes a balance negative. */
  lemma TopUpKeepsNonNegative(m: Book, amount: int)
    requires NonNegative(m)
    ensures NonNegative(TopUp(WithIssuer(m), amount))
  {
  }

  /** A transfer of a non-negative amount the source can cover keeps every
      balance non-negative. */
  lemma MoveKeepsNonNegative(m: Book, from: string, to: string, amount: int)
    requires NonNegative(m)
    requires 0 <= amount <= Lookup(m, from)
    ensures NonNegative(Move(m, from, to, amount))
  {
    var r := Move(m, from, to, amount);
    MoveEffect(m, from, to, amount);
    forall a | a in r ensures r[a] >= 0 {
      if a != from && a != to {
        assert a in r - {from, to};
      }
    }
  }
}

=== FILE: registry.dfy ===
/** The submission registry `db.submissions`: how a submission is built from a
    request, how it is found by id, how its status is resolved, and which account
    a verification credits. */
module Registry {
  import opened LedgerTypes
  import opened Text

  /** `x || null` for a request string: the empty string is stored as null. */
  function OrNull(s: string): (r: Option<string>)
    ensures r.None? <==> s == ""
    ensures r.Some? ==> r.value == s
  {
    if s == "" then None else Some(s)
  }

  /** The amount a verification moves, `Number(s.lee || s.usd || 0)`: the credited
      amount when it is non-zero, else the source amount; 0 only when both are 0. */
  function Amount(s: Submission): (a: int)
    ensures s.lee != 0 ==> a == s.lee
    ensures s.lee == 0 ==> a == s.usd
    ensures a == 0 <==> s.lee == 0 && s.usd == 0
  {
    if s.lee != 0 then s.lee else s.usd
  }

  /** The pending submission `/api/submit` records for a form whose `usd` passed
      validation. The credited amount defaults to the source amount when `lee` is
      absent or 0, so the amount to move is never 0. */
  function NewSubmission(f: SubmitForm, now: Clock): (s: Submission)
    requires f.usd.Some? && f.usd.value != 0
    ensures s.status == Pending && s.id == "MPESA-" + Decimal(now.millis)
    ensures s.usd == f.usd.value
    ensures s.lee == (if f.lee.Some? && f.lee.value != 0 then f.lee.value else f.usd.value)
    ensures Amount(s) == (if f.lee.Some? && f.lee.value != 0 then f.lee.value else f.usd.value)
    ensures Amount(s) != 0
    ensures f.email != "" ==> s.email == Some(f.email)
    ensures s.verifiedBy.None? && s.verifiedAt.None? && s.rejectedAt.None?
    ensures s.name == OrNull(f.name) && s.phone == OrNull(f.phone)
    ensures s.txRef == OrNull(f.txRef) && s.screenshot == OrNull(f.screenshot)
    ensures s.createdAt == now.iso
  {
    var usd := f.usd.value;
    Submission(
      "MPESA-" + Decimal(now.millis),
      OrNull(f.name),
      OrNull(f.phone),
      OrNull(f.email),
      usd,
      if f.lee.Some? && f.lee.value != 0 then f.lee.value else usd,
      OrNull(f.txRef),
      OrNull(f.screenshot),
      Pending,
      now.iso,
      None, None, None)
  }

  /** `submissions.findIndex(s => s.id === id)`: the position of the FIRST
      submission with that id, or `None` when there is none. */
  function FirstIndex(subs: seq<Submission>, id: string): (r: Option<nat>)
    ensures r.Some? ==> r.value < |subs| && subs[r.value].id == id
    ensures r.Some? ==> forall j :: 0 <= j < r.value ==> subs[j].id != id
    ensures r.None? <==> forall j :: 0 <= j < |subs| ==> subs[j].id != id
  {
    if subs == [] then None
    else if subs[0].id == id then Some(0)
    else
      match FirstIndex(subs[1..], id)
      case None => None
      case Some(i) => Some(i + 1)
  }

  /** Replacing a submission by one with the same id leaves every lookup by id
      where it was. */
  lemma {:induction false} FirstIndexAfterUpdate(subs: seq<Submission>, i: nat, s: Submission, id: string)
    requires i < |subs| && s.id == subs[i].id
    ensures FirstIndex(subs[i := s], id) == FirstIndex(subs, id)
  {
    if i == 0 {
      assert subs[i := s][1..] == subs[1..];
    } else if subs[0].id != id {
      assert subs[i := s][1..] == subs[1..][i - 1 := s];
      FirstIndexAfterUpdate(subs[1..], i - 1, s, id);
    }
  }

  /** The submission as `/api/admin/verify` and `/api/submit` leave it: verified,
      stamped with who verified it and when, every other field as it was. */
  function MarkVerified(s: Submission, resolver: string, at: string): (r: Submission)
    ensures r.id == s.id && r.status == Verified
    ensures r.verifiedBy == Some(resolver) && r.verifiedAt == Some(at)
    ensures r.(status := s.status, verifiedBy := s.verifiedBy, verifiedAt := s.verifiedAt) == s
  {
    s.(status := Verified, verifiedBy := Some(resolver), verifiedAt := Some(at))
  }

  /** The submission as `/api/admin/reject` leaves it: rejected, stamped with when,
      every other field (a verification stamp included) as it was. */
  function MarkRejected(s: Submission, at: string): (r: Submission)
    ensures r.id == s.id && r.status == Rejected
    ensures r.rejectedAt == Some(at) && r.verifiedBy == s.verifiedBy && r.verifiedAt == s.verifiedAt
    ensures r.(status := s.status, rejectedAt := s.rejectedAt) == s
  {
    s.(status := Rejected, rejectedAt := Some(at))
  }

  /** Once the first submission with an id is verified, a lookup by that id finds
      it again and finds it no longer pending: a repeated verification is refused. */
  lemma VerifiedStaysFirst(subs: seq<Submission>, id: string, resolver: string, at: string)
    requires FirstIndex(subs, id).Some?
    ensures
      var i := FirstIndex(subs, id).value;
      var subs' := subs[i := MarkVerified(subs[i], resolver, at)];
      FirstIndex(subs', id) == Some(i) && subs'[i].status != Pending
  {
    var i := FirstIndex(subs, id).value;
    FirstIndexAfterUpdate(subs, i, MarkVerified(subs[i], resolver, at), id);
  }

  /** No submission is waiting for a verification. `/api/submit` never writes a
      pending submission (it leaves each one failed or verified), so every
      database this server builds from empty has this property. */
  predicate NoPending(subs: seq<Submission>)
  {
    forall i :: 0 <= i < |subs| ==> subs[i].status != Pending
  }

  /** Some submission with this id carries a verification stamp: it was verified,
      and may have been rejected since (a rejection keeps the stamp). */
  ghost predicate Stamped(subs: seq<Submission>, id: string)
  {
    exists i :: 0 <= i < |subs| && subs[i].id == id && subs[i].verifiedBy.Some?
  }

  /** Appending a submission keeps every stamped id stamped. */
  lemma StampedAfterAppend(subs: seq<Submission>, s: Submission, id: string)
    requires Stamped(subs, id)
    ensures Stamped(subs + [s], id)
  {
    var i :| 0 <= i < |subs| && subs[i].id == id && subs[i].verifiedBy.Some?;
    assert (subs + [s])[i] == subs[i];
  }

  /** Replacing a submission by one with the same id that keeps any verification
      stamp the old one had keeps every stamped id stamped. */
  lemma StampedAfterUpdate(subs: seq<Submission>, k: nat, s: Submission, id: string)
    requires k < |subs| && s.id == subs[k].id
    requires subs[k].verifiedBy.Some? ==> s.verifiedBy.Some?
    requires Stamped(subs, id)
    ensures Stamped(subs[k := s], id)
  {
    var i :| 0 <= i < |subs| && subs[i].id == id && subs[i].verifiedBy.Some?;
    assert subs[k := s][i].id == id && subs[k := s][i].verifiedBy.Some?;
  }

  /** Every transfer in the log names a submission that carries a verification stamp. */
  ghost predicate AllStamped(ts: seq<Transfer>, subs: seq<Submission>)
  {
    forall t :: t in ts ==> Stamped(subs, t.submissionId)
  }

  /** Appending a submission keeps every transfer backed. */
  lemma AllStampedAfterAppend(ts: seq<Transfer>, subs: seq<Submission>, s: Submission)
    requires AllStamped(ts, subs)
    ensures AllStamped(ts, subs + [s])
  {
    forall t | t in ts ensures Stamped(subs + [s], t.submissionId) {
      StampedAfterAppend(subs, s, t.submissionId);
    }
  }

  /** Replacing a submission as `StampedAfterUpdate` allows keeps every transfer backed. */
  lemma AllStampedAfterUpdate(ts: seq<Transfer>, subs: seq<Submission>, k: nat, s: Submission)
    requires k < |subs| && s.id == subs[k].id
    requires subs[k].verifiedBy.Some? ==> s.verifiedBy.Some?
    requires AllStamped(ts, subs)
    ensures AllStamped(ts, subs[k := s])
  {
    forall t | t in ts ensures Stamped(subs[k := s], t.submissionId) {
      StampedAfterUpdate(subs, k, s, t.submissionId);
    }
  }

  /** Verifying the submission at `k` backs a new transfer that names it. */
  lemma AllStampedAfterVerify(ts: seq<Transfer>, subs: seq<Submission>, k: nat, resolver: string, at: string, t: Transfer)
    requires k < |subs| && t.submissionId == subs[k].id
    requires AllStamped(ts, subs)
    ensures AllStamped(ts + [t], subs[k := MarkVerified(subs[k], resolver, at)])
  {
    var subs' := subs[k := MarkVerified(subs[k], resolver, at)];
    AllStampedAfterUpdate(ts, subs, k, MarkVerified(subs[k], resolver, at));
    assert subs'[k].id == t.submissionId && subs'[k].verifiedBy.Some?;
  }

  /** The recipient `/api/admin/verify` credits: the trimmed phone number when it
      has a non-blank character, else the transaction reference when it is
      non-empty, else the generated placeholder. A phone recipient never carries
      white space at either end, so trimming it again changes nothing. */
  function ChooseRecipient(s: Submission, placeholder: string): (r: string)
    ensures s.phone.Some? && !Blank(s.phone.value) ==>
      r == Trim(s.phone.value) && r != [] && !IsSpace(r[0]) && !IsSpace(r[|r| - 1]) && Trim(r) == r
    ensures (s.phone.None? || Blank(s.phone.value)) && s.txRef.Some? && s.txRef.value != "" ==>
      r == s.txRef.value
    ensures (s.phone.None? || Blank(s.phone.value)) && (s.txRef.None? || s.txRef.value == "") ==>
      r == placeholder
    ensures placeholder != "" ==> r != ""
  {
    if s.phone.Some? && Trim(s.phone.value) != "" then
      TrimIdempotent(s.phone.value);
      Trim(s.phone.value)
    else if s.txRef.Some? && s.txRef.value != "" then s.txRef.value
    else placeholder
  }

  /** The generated recipient `user-<Date.now()>`: the prefix followed by the digits
      of the clock reading, so it is never the issuer's account. */
  function Placeholder(now: Clock): (r: string)
    ensures |r| > 5 && r[..5] == "user-" && r[5..] == Decimal(now.millis)
    ensures r != Issuer
  {
    "user-" + Decimal(now.millis)
  }
}

=== FILE: server.dfy ===
/** The in-memory database `{ submissions, balances, transfers }` and the ledger
    effect of each HTTP handler that writes it. Every handler runs from reading
    the database to writing it back without interruption, so each method below
    is one atomic step; a handler that replies with an error before writing
    leaves the database as it was. */
module Server {
  import opened LedgerTypes
  import opened Text
  import opened Balances
  import opened Registry
  import opened Views

  /** Every transfer in the log is debited from the issuer. */
  predicate FromIssuer(ts: seq<Transfer>)
  {
    forall t :: t in ts ==> t.from == Issuer
  }

  class Ledger {
    var submissions: seq<Submission>
    var balances: Book
    var transfers: seq<Transfer>
    /** Everything top-ups and login seeding have added to the issuer so far. */
    ghost var minted: int

    /** Conservation: the sum of all balances is exactly what has been minted,
        since transfers only move value. Every transfer is debited from the
        issuer and names a submission that carries a verification stamp. */
    ghost predicate Valid()
      reads this
    {
      && Total(balances) == minted
      && FromIssuer(transfers)
      && AllStamped(transfers, submissions)
    }

    /** The database `readDB` creates when none exists yet. */
    constructor ()
      ensures Valid()
      ensures submissions == [] && balances == map[] && transfers == [] && minted == 0
      ensures NoPending(submissions)
    {
      submissions := [];
      balances := map[];
      transfers := [];
      minted := 0;
    }

    /** `/api/submit`: validate the form, record a pending submission, top the
        issuer up when it is short, then either mark the submission failed
        (keeping the top-up) or move the amount to the account named by the
        submitter's email and mark the submission verified by "system". */
    method Submit(form: SubmitForm, now: Clock) returns (r: Result<string>)
      requires Valid()
      modifies this
      ensures Valid()
      ensures form.usd.None? || form.usd.value == 0 ==> r == Err(InvalidAmount) && unchanged(this)
      ensures form.usd.Some? && form.usd.value != 0 && form.email == "" ==>
        r == Err(EmailRequired) && unchanged(this)
      ensures form.usd.Some? && form.usd.value != 0 && form.email != "" ==>
        var s := NewSubmission(form, now);
        var amount := Amount(s);
        var topped := TopUp(WithIssuer(old(balances)), amount);
        && minted == old(minted) + (Lookup(topped, Issuer) - Lookup(old(balances), Issuer))
        && ((r == Err(InsufficientSystemBalance))
              <==> amount > Max(Lookup(old(balances), Issuer), TopUpCeiling))
        && (Lookup(topped, Issuer) < amount ==>
              && r == Err(InsufficientSystemBalance)
              && submissions == old(submissions) + [s.(status := Failed)]
              && balances == topped
              && transfers == old(transfers))
        && (Lookup(topped, Issuer) >= amount ==>
              && r == Ok(s.id)
              && submissions == old(submissions) + [MarkVerified(s, "system", now.iso)]
              && balances == Move(topped, Issuer, form.email, amount)
              && transfers == old(transfers)
                 + [Transfer("TR-" + Decimal(now.millis), Issuer, form.email, amount, now.iso, s.id)])
      ensures r.Err? ==> transfers == old(transfers) && SameExcept(old(balances), balances, Issuer)
      ensures NonNegative(old(balances))
           && (form.usd.Some? && form.usd.value != 0 ==> Amount(NewSubmission(form, now)) >= 0)
          ==> NonNegative(balances)
      ensures NoPending(old(submissions)) ==> NoPending(submissions)
    {
      if form.usd.None? || form.usd.value == 0 {
        return Err(InvalidAmount);
      }
      if form.email == "" {
        return Err(EmailRequired);
      }
      ghost var before, subsBefore := balances, submissions;
      var s := NewSubmission(form, now);
      submissions := submissions + [s];
      var last := |submissions| - 1;
      AllStampedAfterAppend(transfers, subsBefore, s);

      var amount := Amount(s);
      TopUpIssuer(amount);
      if NonNegative(before) && amount >= 0 {
        TopUpKeepsNonNegative(before, amount);
      }

      if Lookup(balances, Issuer) < amount {
        ghost var appended := submissions;
        submissions := submissions[last := s.(status := Failed)];
        AllStampedAfterUpdate(transfers, appended, last, s.(status := Failed));
        return Err(InsufficientSystemBalance);
      }

      if NonNegative(before) && amount >= 0 {
        MoveKeepsNonNegative(balances, Issuer, s.email.value, amount);
      }
      var t := Settle(last, s.email.value, amount, "system", now);
      r := Ok(s.id);
    }

    /** The auto-verify top-up of `/api/submit`: give the issuer an entry, then
        reset a balance below `amount` to `max(balance, TopUpCeiling)`. What it
        adds is accounted for in `minted`. */
    method TopUpIssuer(amount: int)
      requires Valid()
      modifies this
      ensures Valid()
      ensures balances == TopUp(WithIssuer(old(balances)), amount)
      ensures submissions == old(submissions) && transfers == old(transfers)
      ensures minted == old(minted) + (Lookup(balances, Issuer) - Lookup(old(balances), Issuer))
    {
      ghost var before := balances;
      WithIssuerConserves(balances);
      balances := balances[Issuer := Lookup(balances, Issuer)];
      if balances[Issuer] < amount {
        TotalUpdate(balances, Issuer, Max(balances[Issuer], TopUpCeiling));
        balances := balances[Issuer := Max(balances[Issuer], TopUpCeiling)];
      }
      minted := minted + (balances[Issuer] - Lookup(before, Issuer));
    }

    /** The step `/api/submit` and `/api/admin/verify` share once the guards have
        passed: debit the issuer, credit the recipient (`balances[to] || 0` plus the
        amount), log the transfer naming the submission at `k`, and mark that
        submission verified by `resolver`. The sum of all balances is unchanged. */
    method Settle(k: nat, recipient: string, amount: int, resolver: string, now: Clock) returns (t: Transfer)
      requires Valid()
      requires k < |submissions|
      modifies this
      ensures Valid() && minted == old(minted)
      ensures t == Transfer("TR-" + Decimal(now.millis), Issuer, recipient, amount, now.iso, old(submissions)[k].id)
      ensures balances == Move(old(balances), Issuer, recipient, amount)
      ensures transfers == old(transfers) + [t]
      ensures submissions == old(submissions)[k := MarkVerified(old(submissions)[k], resolver, now.iso)]
    {
      MoveConserves(balances, Issuer, recipient, amount);
      ghost var before := balances;
      balances := balances[Issuer := Lookup(balances, Issuer) - amount];
      balances := balances[recipient := Lookup(balances, recipient) + amount];
      assert balances == Move(before, Issuer, recipient, amount);
      assert Total(balances) == minted;

      t := Transfer("TR-" + Decimal(now.millis), Issuer, recipient, amount, now.iso, submissions[k].id);
      AllStampedAfterVerify(transfers, submissions, k, resolver, now.iso, t);
      transfers := transfers + [t];
      submissions := submissions[k := MarkVerified(submissions[k], resolver, now.iso)];
    }

    /** `/api/admin/verify`: find the first submission with the id; refuse, changing
        nothing, when the id is missing or unknown, the submission is not pending or
        the issuer cannot cover the amount (there is no top-up on this path);
        otherwise move the amount from the issuer to the chosen recipient, log the
        transfer and mark that one submission verified by the resolver. */
    method Verify(id: string, resolver: string, now: Clock) returns (r: Result<Transfer>)
      requires Valid()
      modifies this
      ensures Valid() && minted == old(minted)
      ensures id == "" ==> r == Err(MissingId) && unchanged(this)
      ensures id != "" && FirstIndex(old(submissions), id).None? ==> r == Err(NotFound) && unchanged(this)
      ensures id != "" && FirstIndex(old(submissions), id).Some? ==>
        var i := FirstIndex(old(submissions), id).value;
        var s := old(submissions)[i];
        var amount := Amount(s);
        var recipient := ChooseRecipient(s, Placeholder(now));
        if s.status != Pending then
          r == Err(NotPending) && unchanged(this)
        else if Lookup(old(balances), Issuer) < amount then
          r == Err(InsufficientAdminBalance) && unchanged(this)
        else
          && r == Ok(Transfer("TR-" + Decimal(now.millis), Issuer, recipient, amount, now.iso, s.id))
          && balances == Move(old(balances), Issuer, recipient, amount)
          && transfers == old(transfers) + [r.value]
          && submissions == old(submissions)[i := MarkVerified(s, resolver, now.iso)]
      ensures NonNegative(old(balances)) && (r.Ok? ==> r.value.amount >= 0) ==> NonNegative(balances)
      ensures NoPending(old(submissions)) ==> r.Err? && unchanged(this)
    {
      if id == "" {
        return Err(MissingId);
      }
      var found := FirstIndex(submissions, id);
      if found.None? {
        return Err(NotFound);
      }
      var i := found.value;
      var s := submissions[i];
      if s.status != Pending {
        return Err(NotPending);
      }
      var amount := Amount(s);
      if Lookup(balances, Issuer) < amount {
        return Err(InsufficientAdminBalance);
      }
      var recipient := ChooseRecipient(s, Placeholder(now));
      if NonNegative(balances) && amount >= 0 {
        MoveKeepsNonNegative(balances, Issuer, recipient, amount);
      }
      var t := Settle(i, recipient, amount, resolver, now);
      r := Ok(t);
    }

    /** `/api/admin/reject`: mark the first submission with the id rejected,
        whatever its status was, and touch neither balances nor transfers. */
    method Reject(id: string, now: Clock) returns (r: Result<()>)
      requires Valid()
      modifies this
      ensures Valid()
      ensures balances == old(balances) && transfers == old(transfers) && minted == old(minted)
      ensures id == "" ==> r == Err(MissingId) && submissions == old(submissions)
      ensures id != "" && FirstIndex(old(submissions), id).None? ==>
        r == Err(NotFound) && submissions == old(submissions)
      ensures id != "" && FirstIndex(old(submissions), id).Some? ==>
        var i := FirstIndex(old(submissions), id).value;
        r == Ok(()) && submissions == old(submissions)[i := MarkRejected(old(submissions)[i], now.iso)]
      ensures NoPending(old(submissions)) ==> NoPending(submissions)
    {
      if id == "" {
        return Err(MissingId);
      }
      var found := FirstIndex(submissions, id);
      if found.None? {
        return Err(NotFound);
      }
      var i := found.value;
      AllStampedAfterUpdate(transfers, submissions, i, MarkRejected(submissions[i], now.iso));
      submissions := submissions[i := MarkRejected(submissions[i], now.iso)];
      r := Ok(());
    }

    /** The ledger effect of a successful `/api/admin/login`: seed the issuer when
        its balance is missing or 0. */
    method SeedOnLogin()
      requires Valid()
      modifies this
      ensures Valid()
      ensures balances == Seed(old(balances))
      ensures submissions == old(submissions) && transfers == old(transfers)
      ensures minted == old(minted) + (balances[Issuer] - Lookup(old(balances), Issuer))
    {
      var current := Lookup(balances, Issuer);
      TotalUpdate(balances, Issuer, if current == 0 then LoginSeed else current);
      balances := balances[Issuer := if current == 0 then LoginSeed else current];
      minted := minted + (balances[Issuer] - current);
    }

    /** `/api/admin/balances`: the book with an issuer entry added for the reply;
        the database itself is not written. */
    method AdminBalances() returns (b: Book)
      ensures Issuer in b && b[Issuer] == Lookup(balances, Issuer)
      ensures SameExcept(balances, b, Issuer)
    {
      b := WithIssuer(balances);
    }
  }

  /** Verifying the same id twice: the second attempt always fails and changes
      nothing, so the two together make at most one balance change and append at
      most one transfer; when the first succeeded the second is refused as not
      pending. */
  method VerifyTwice(ledger: Ledger, id: string, resolver: string, now1: Clock, now2: Clock)
    returns (first: Result<Transfer>, second: Result<Transfer>)
    requires ledger.Valid()
    modifies ledger
    ensures ledger.Valid()
    ensures second.Err?
    ensures first.Ok? ==> second == Err(NotPending)
    ensures |ledger.transfers| <= |old(ledger.transfers)| + 1
    ensures Total(ledger.balances) == Total(old(ledger.balances))
    ensures first.Ok? ==>
      && ledger.balances == Move(old(ledger.balances), Issuer, first.value.to, first.value.amount)
      && ledger.transfers == old(ledger.transfers) + [first.value]
    ensures first.Err? ==> ledger.balances == old(ledger.balances) && ledger.transfers == old(ledger.transfers)
  {
    first := ledger.Verify(id, resolver, now1);
    if first.Ok? {
      VerifiedStaysFirst(old(ledger.submissions), id, resolver, now1.iso);
    }
    second := ledger.Verify(id, resolver, now2);
  }

  /** Rejecting after a successful verification: the rejection is accepted and the
      submission ends up rejected, while the transfer and the credit stay. */
  method RejectAfterVerify(ledger: Ledger, id: string, resolver: string, now1: Clock, now2: Clock)
    returns (verified: Result<Transfer>, rejected: Result<()>)
    requires ledger.Valid()
    modifies ledger
    ensures ledger.Valid()
    ensures verified.Ok? ==>
      && rejected == Ok(())
      && ledger.transfers == old(ledger.transfers) + [verified.value]
      && ledger.balances == Move(old(ledger.balances), Issuer, verified.value.to, verified.value.amount)
      && FirstIndex(ledger.submissions, id).Some?
      && ledger.submissions[FirstIndex(ledger.submissions, id).value].status == Rejected
  {
    verified := ledger.Verify(id, resolver, now1);
    if verified.Ok? {
      VerifiedStaysFirst(old(ledger.submissions), id, resolver, now1.iso);
    }
    ghost var afterVerify := ledger.submissions;
    rejected := ledger.Reject(id, now2);
    if verified.Ok? {
      var i := FirstIndex(afterVerify, id).value;
      FirstIndexAfterUpdate(afterVerify, i, MarkRejected(afterVerify[i], now2.iso), id);
    }
  }
}

=== FILE: text.dfy ===
/** JavaScript's `String.prototype.trim`, used to decide whether a submission's
    phone number can serve as the recipient account. */
module Text {

  /** The characters `trim` removes: ECMAScript WhiteSpace (TAB, VT, FF, ZWNBSP
      and every space separator) and LineTerminator (LF, CR, LS, PS). */
  predicate IsSpace(c: char)
  {
    || ('\t' <= c <= '\r')                 // TAB, LF, VT, FF, CR
    || c == ' ' || c == '\U{00A0}' || c == '\U{1680}'
    || ('\U{2000}' <= c <= '\U{200A}')     // EN QUAD .. HAIR SPACE
    || c == '\U{2028}' || c == '\U{2029}'  // LS, PS
    || c == '\U{202F}' || c == '\U{205F}' || c == '\U{3000}' || c == '\U{FEFF}'
  }

  /** A string is blank when every character in it is white space. */
  predicate Blank(s: string)
  {
    forall i :: 0 <= i < |s| ==> IsSpace(s[i])
  }

  /** The length of the run of white space at the front of `s`. */
  function LeadingSpaces(s: string): (k: nat)
    ensures k <= |s|
    ensures forall i :: 0 <= i < k ==> IsSpace(s[i])
    ensures k < |s| ==> !IsSpace(s[k])
  {
    if s == [] || !IsSpace(s[0]) then 0
    else 1 + LeadingSpaces(s[1..])
  }

  /** The length of the run of white space at the back of `s`. */
  function TrailingSpaces(s: string): (k: nat)
    ensures k <= |s|
    ensures forall i :: |s| - k <= i < |s| ==> IsSpace(s[i])
    ensures k < |s| ==> !IsSpace(s[|s| - 1 - k])
  {
    if s == [] || !IsSpace(s[|s| - 1]) then 0
    else 1 + TrailingSpaces(s[..|s| - 1])
  }

  /** `s` with its leading and trailing white space removed: the part of `s`
      after its leading white space with only white space after it, which
      neither starts nor ends with white space and is empty exactly when `s` is
      blank. */
  function Trim(s: string): (r: string)
    ensures |r| <= |s|
    ensures var a := LeadingSpaces(s);
      && a + |r| <= |s|
      && r == s[a..a + |r|]
      && (forall j :: a + |r| <= j < |s| ==> IsSpace(s[j]))
    ensures r != [] ==> !IsSpace(r[0]) && !IsSpace(r[|r| - 1])
    ensures r == [] <==> Blank(s)
  {
    var a := LeadingSpaces(s);
    var b := TrailingSpaces(s[a..]);
    TrimCutsSpace(s, a, b);
    TrimEnds(s, a, b);
    TrimEmptyIffBlank(s, a, b);
    s[a..|s| - b]
  }

  /** Everything after the trimmed part is white space. */
  lemma TrimCutsSpace(s: string, a: nat, b: nat)
    requires a <= |s| && b == TrailingSpaces(s[a..])
    ensures a + b <= |s|
    ensures forall j :: |s| - b <= j < |s| ==> IsSpace(s[j])
  {
    var t := s[a..];
    forall j | |s| - b <= j < |s| ensures IsSpace(s[j]) {
      assert IsSpace(t[j - a]);
    }
  }

  /** The trimmed part, when not empty, starts and ends with a non-space. */
  lemma TrimEnds(s: string, a: nat, b: nat)
    requires a == LeadingSpaces(s) && b == TrailingSpaces(s[a..])
    ensures a + b <= |s|
    ensures var r := s[a..|s| - b]; r != [] ==> !IsSpace(r[0]) && !IsSpace(r[|r| - 1])
  {
    if a + b < |s| {
      assert s[|s| - b - 1] == s[a..][|s| - a - 1 - b];
    }
  }

  /** The trimmed part is empty exactly when `s` is blank. */
  lemma TrimEmptyIffBlank(s: string, a: nat, b: nat)
    requires a == LeadingSpaces(s) && b == TrailingSpaces(s[a..])
    ensures a + b <= |s|
    ensures s[a..|s| - b] == [] <==> Blank(s)
  {
    TrimCutsSpace(s, a, b);
  }

  /** Trimming a trimmed string changes nothing. */
  lemma TrimIdempotent(s: string)
    ensures Trim(Trim(s)) == Trim(s)
  {
    var r := Trim(s);
    assert LeadingSpaces(r) == 0;
    assert r[0..] == r;
    assert TrailingSpaces(r) == 0;
    assert r[..|r|] == r;
  }
}

=== FILE: types.dfy ===
/** Values held in the LEE ledger database: submissions, transfers, the reserved
    issuing account and the outcomes the HTTP handlers report. */
module LedgerTypes {

  datatype Option<T> = None | Some(value: T)

  /** The reserved issuing account: every credit on the ledger is debited from it. */
  const Issuer: string := "LEE_ADMIN"

  /** The level the auto-verify top-up resets a short issuer balance to. */
  const TopUpCeiling: int := 1000000000

  /** The balance an administrator login gives an issuer whose balance is missing or 0. */
  const LoginSeed: int := 1000000000

  /** Lifecycle of a payment submission. */
  datatype Status = Pending | Verified | Rejected | Failed

  /** One claimed external payment, as stored in `db.submissions`. Fields the
      handler stores as `x || null` are `Option`s; `None` is the stored null. */
  datatype Submission = Submission(
    id: string,
    name: Option<string>,
    phone: Option<string>,
    email: Option<string>,
    usd: int,
    lee: int,
    txRef: Option<string>,
    screenshot: Option<string>,
    status: Status,
    createdAt: string,
    verifiedBy: Option<string>,
    verifiedAt: Option<string>,
    rejectedAt: Option<string>)

  /** One completed movement of value, as stored in `db.transfers`. */
  datatype Transfer = Transfer(
    id: string,
    from: string,
    to: string,
    amount: int,
    createdAt: string,
    submissionId: string)

  /** One reading of the clock: `Date.now()` in milliseconds and its ISO-8601 rendering. */
  datatype Clock = Clock(millis: nat, iso: string)

  /** The body of a `/api/submit` request. A string field that is absent or empty is
      `""`; `usd` and `lee` are `None` when absent or not numeric. */
  datatype SubmitForm = SubmitForm(
    name: string,
    phone: string,
    usd: Option<int>,
    lee: Option<int>,
    txRef: string,
    screenshot: string,
    email: string)

  /** The error replies of the ledger handlers. */
  datatype ApiError =
    | InvalidAmount
    | EmailRequired
    | InsufficientSystemBalance
    | MissingId
    | NotFound
    | NotPending
    | InsufficientAdminBalance

  datatype Result<T> = Ok(value: T) | Err(error: ApiError)

  function DigitChar(d: nat): (c: char)
    requires d < 10
    ensures '0' <= c <= '9' && c as int - '0' as int == d
  {
    ['0', '1', '2', '3', '4', '5', '6', '7', '8', '9'][d]
  }

  /** The number a string of decimal digits denotes, most significant digit first. */
  ghost function DigitsValue(s: string): nat
    requires forall i :: 0 <= i < |s| ==> '0' <= s[i] <= '9'
  {
    if s == [] then 0
    else 10 * DigitsValue(s[..|s| - 1]) + (s[|s| - 1] as int - '0' as int)
  }

  /** Decimal rendering of a clock reading, as a JavaScript template literal prints
      it: a non-empty string of digits that denotes `n`, so distinct readings give
      distinct renderings. */
  function Decimal(n: nat): (s: string)
    ensures |s| > 0
    ensures forall i :: 0 <= i < |s| ==> '0' <= s[i] <= '9'
    ensures DigitsValue(s) == n
    ensures n > 0 ==> s[0] != '0'
    ensures s[0] == '0' ==> |s| == 1
  {
    if n < 10 then [DigitChar(n)]
    else
      var prefix := Decimal(n / 10);
      assert (prefix + [DigitChar(n % 10)])[..|prefix|] == prefix;
      prefix + [DigitChar(n % 10)]
  }

  /** Two clock readings give the same decimal text only when they are equal. */
  lemma DecimalInjective(a: nat, b: nat)
    ensures Decimal(a) == Decimal(b) ==> a == b
  {
    if Decimal(a) == Decimal(b) {
      assert DigitsValue(Decimal(a)) == a;
    }
  }
}

=== FILE: views.dfy ===
/** The read-only account view `/api/dashboard` returns. */
module Views {
  import opened LedgerTypes
  import opened Balances

  /** A transfer mentions an account when it is its source or its destination. */
  predicate Mentions(t: Transfer, account: string)
  {
    t.to == account || t.from == account
  }

  /** `a` is `b` with some elements left out and the rest kept in order. */
  ghost predicate IsSubsequence(a: seq<Transfer>, b: seq<Transfer>)
    decreases |b|
  {
    if a == [] then true
    else if b == [] then false
    else if a[0] == b[0] then IsSubsequence(a[1..], b[1..])
    else IsSubsequence(a, b[1..])
  }

  /** `transfers.filter(t => t.to === email || t.from === email)`: the transfers
      that mention the account, in ledger order, each as often as the log holds it. */
  function Involving(ts: seq<Transfer>, account: string): (r: seq<Transfer>)
    ensures forall t :: t in r <==> t in ts && Mentions(t, account)
    ensures forall t :: multiset(r)[t] == if Mentions(t, account) then multiset(ts)[t] else 0
    ensures |r| <= |ts|
    ensures IsSubsequence(r, ts)
  {
    if ts == [] then []
    else
      assert ts == [ts[0]] + ts[1..];
      if Mentions(ts[0], account) then [ts[0]] + Involving(ts[1..], account)
      else Involving(ts[1..], account)
  }

  /** Filtering distributes over appending one transfer to the log. */
  lemma {:induction false} InvolvingAppend(ts: seq<Transfer>, t: Transfer, account: string)
    ensures Involving(ts + [t], account)
         == Involving(ts, account) + (if Mentions(t, account) then [t] else [])
  {
    if ts == [] {
      assert ts + [t] == [t];
    } else {
      assert (ts + [t])[1..] == ts[1..] + [t];
      InvolvingAppend(ts[1..], t, account);
    }
  }

  /** The reply of `/api/dashboard` for an authenticated account. */
  datatype View = View(email: string, balance: int, transfers: seq<Transfer>)

  /** The dashboard: the account's balance, 0 when it has none, and the transfers
      that mention it, in ledger order and with their multiplicity. */
  function Dashboard(balances: Book, transfers: seq<Transfer>, email: string): (v: View)
    ensures v.email == email
    ensures email in balances ==> v.balance == balances[email]
    ensures email !in balances ==> v.balance == 0
    ensures forall t :: t in v.transfers <==> t in transfers && Mentions(t, email)
    ensures forall t :: multiset(v.transfers)[t] == if Mentions(t, email) then multiset(transfers)[t] else 0
    ensures IsSubsequence(v.transfers, transfers)
  {
    View(email, Lookup(balances, email), Involving(transfers, email))
  }

  /** After a transfer to a non-issuer account, that account's dashboard shows the
      balance raised by exactly the amount and the new transfer at the end. */
  lemma DashboardAfterTransfer(balances: Book, transfers: seq<Transfer>, t: Transfer)
    requires t.from == Issuer && t.to != Issuer
    ensures
      var before := Dashboard(balances, transfers, t.to);
      var after := Dashboard(Move(balances, Issuer, t.to, t.amount), transfers + [t], t.to);
      after.balance == before.balance + t.amount && after.transfers == before.transfers + [t]
  {
    InvolvingAppend(transfers, t, t.to);
    MoveEffect(balances, Issuer, t.to, t.amount);
  }
}
